=== FILE: README.md ===
# Agentic research analyst: the deterministic core

This project models, in Dafny, the string and sequence logic that surrounds the
retrieval-augmented agent of `agentic-research-analyst`:

- **Chunker** (`rag/chunking.py`): `chunk_text(text, chunk_size=300, overlap=50)`
  emits the window `text[start:start + chunk_size]` and moves `start` on by
  `chunk_size - overlap` until `start` reaches the end of the text. The model
  gives the loop (`Chunking.ChunkText`), a closed form (`Chunking.Chunks`: chunk
  `i` starts at `i * (chunk_size - overlap)`, and there are
  `ceil(len / (chunk_size - overlap))` chunks), and proofs of the chunk count,
  chunk shape, overlap between neighbours, coverage, and lossless reassembly.
- **Agent tools** (`agent/tools.py`): the module globals `RETRIEVE_K`,
  `_vector_store`, `_llm` and `_last_context` become one `Tools.ToolState`
  record. The tools are pure functions over that record:
  - `set_retrieval_k`, `initialize_tools`;
  - the newline-aware `_truncate`;
  - the `[Chunk i]` block formatter and the last-context cache of `retrieve_context`;
  - the placeholder rule that `summarize_context` and `extract_action_items`
    use to choose between the given context, the cached context cut to 4000
    characters, and the fixed "No document context available…" message.

  The vector store's similarity search is passed in as a function from query
  and `k` to the page contents it returns. The language model, together with
  the prompt built around the context, is passed in as a function from the
  resolved context to the reply.
- **Memory** (`agent/memory.py`): an append-only list of entries and its
  newline-joined rendering (`AgentMemory`).
- **Confidence** (`utils/confidence.py`): the stub score: 0.0 for an empty
  answer and 0.9 for anything else (`Confidence`).

Python built-ins that this logic relies on are modelled once, in module `Text`:
- slicing with clipped and negative bounds;
- `sep.join`, `str.split`, and `sub in s`;
- ASCII `lower()`;
- the decimal rendering of an `int` in an f-string.

## Behaviour of the chunker worth knowing

`chunk_text` does not check `overlap >= chunk_size`. In that case its start
never advances and the loop never ends on non-empty text. The model makes an
advancing start (`chunk_size - overlap > 0`, `Chunking.Advances`) the
precondition.

Let `step = chunk_size - overlap`. The loop emits `ceil(len / step)` windows,
so a text with `step < len <= chunk_size` fits in one window but still gives
at least two chunks, and exactly two when `len <= 2 * step`
(`Chunking.LongerThanStepSeveralChunks`). With the defaults every such text
gives exactly two: 290 characters give the whole text and then its last 40
characters again (`Chunking.FittingTextTwoChunks`). With `chunk_size` 300 and
`overlap` 250, a 300-character text gives six (`Chunking.LargeOverlapSixChunks`).
The proved facts are:
- exactly one chunk when `0 < len <= step` (`Chunking.ShortTextOneChunk`);
- for `len <= chunk_size`, the first chunk is the whole text and any later
  chunk is a suffix of it (`Chunking.FittingTextFirstChunk`).

Similarity search in `agentic-research-analyst` is delegated to FAISS, and its
only confidence function is the constant stub. The weighted trust score of
`rag system/app.py` belongs to a different application in the repository and
is not part of this model.

## Model

| member | source | states |
|---|---|---|
| Text.PySlice | agentic-research-analyst/rag/chunking.py:6 | Python slicing: the result is never longer than the text; in-range non-negative bounds give exactly that piece, clipped at the end; a start at or past the end gives the empty string |
| Text.Contains | agentic-research-analyst/agent/tools.py:82 | the substring test `marker in text` holds exactly when the marker occurs at some position of the text |
| Text.DecimalRoundTrip | agentic-research-analyst/agent/tools.py:60 | the decimal rendering of the chunk number reads back as the same number |
| Text.SplitJoin | agentic-research-analyst/agent/memory.py:12 | splitting a newline-join at newlines gives back the parts when none contains a newline |
| Chunking.ChunkText | agentic-research-analyst/rag/chunking.py:1-9 | the loop emits `ceil(len / (chunk_size - overlap))` chunks, and chunk `i` is `text[i*step : i*step + chunk_size]`, for every configuration whose start advances |
| Chunking.IngestChunks | agentic-research-analyst/rag/ingest.py:13-16 | ingestion with the defaults gives `ceil(len / 250)` chunks, chunk `i` being the 300-character window starting at `250*i` |
| Chunking.StartBeforeEnd | agentic-research-analyst/rag/chunking.py:5 | a window index is below the chunk count exactly when its start lies before the end of the text, which is the loop condition |
| Chunking.ChunkShape | agentic-research-analyst/rag/chunking.py:5-6 | for a positive chunk size every chunk is non-empty, at most `chunk_size` long, full length unless it reaches the end, and the contiguous piece of the text at its start |
| Chunking.EmptyTextNoChunks | agentic-research-analyst/rag/chunking.py:5 | an empty text yields no chunks |
| Chunking.ShortTextOneChunk | agentic-research-analyst/rag/chunking.py:5-8 | a non-empty text no longer than `chunk_size - overlap` yields exactly one chunk, the text itself |
| Chunking.FittingTextFirstChunk | agentic-research-analyst/rag/chunking.py:5-8 | a non-empty text of at most `chunk_size` characters comes back whole as the first chunk, and every later chunk is the suffix from its start |
| Chunking.LongerThanStepSeveralChunks | agentic-research-analyst/rag/chunking.py:5-7 | a text longer than `chunk_size - overlap` yields at least two chunks, even when it fits in one window, and exactly two when it is at most twice that long |
| Chunking.LargeOverlapSixChunks | agentic-research-analyst/rag/chunking.py:5-7 | with `chunk_size` 300 and `overlap` 250 a 300-character text gives six chunks, the first of them the whole text |
| Chunking.FittingTextTwoChunks | agentic-research-analyst/rag/chunking.py:5-7 | with the defaults a 290-character text yields two chunks: the whole text and its last 40 characters |
| Chunking.ConsecutiveOverlap | agentic-research-analyst/rag/chunking.py:6-7 | when chunk `i` is full length and chunk `i+1` exists, the last `overlap` characters of chunk `i` are the first `overlap` characters of chunk `i+1` |
| Chunking.ChunksCover | agentic-research-analyst/rag/chunking.py:6-7 | with `0 <= overlap < chunk_size` every character position lies in some chunk, whose character at that offset is the text's |
| Chunking.ChunksFromZero | agentic-research-analyst/rag/chunking.py:2-9 | the iteration-by-iteration chunk list equals the closed form with start `i * step` and `ceil(len / step)` chunks |
| Chunking.ReassembleChunks | agentic-research-analyst/rag/chunking.py:5-7 | the first `step` characters of each chunk but the last, followed by the last chunk, rebuild the original text exactly |
| Chunking.DefaultThousandCharacters | agentic-research-analyst/rag/chunking.py:1-7 | with the defaults a 1000-character text yields 4 chunks, the last one 250 characters long |
| Tools.ImportedState | agentic-research-analyst/agent/tools.py:6-11 | at import no store, no model and no cached context are set, and `RETRIEVE_K` is the environment's value |
| Tools.UnsetEnvironmentRetrievesFour | agentic-research-analyst/agent/tools.py:11 | an example: importing with the default `"4"` used when the environment variable is unset gives `RETRIEVE_K` 4, and a failed `set_retrieval_k` conversion keeps that state |
| Tools.SetRetrievalK | agentic-research-analyst/agent/tools.py:14-21 | a convertible value sets `RETRIEVE_K` to `max(1, k)` (so it is at least 1); a failed conversion changes nothing; other globals are untouched |
| Tools.SetRetrievalKIdempotent | agentic-research-analyst/agent/tools.py:17-21 | setting the same value twice equals setting it once, and a positive value is kept as given |
| Tools.InitializeTools | agentic-research-analyst/agent/tools.py:24-33 | stores whether a store and a model were given, resets the cached context to none, keeps `RETRIEVE_K` |
| Tools.LastIndexOf | agentic-research-analyst/agent/tools.py:55-56 | the position of the last newline in the cut text, or none exactly when it has no newline |
| Tools.Truncate | agentic-research-analyst/agent/tools.py:48-57 | text within the budget comes back unchanged; longer text becomes a prefix of its first `n` characters plus `"..."`, at most `n + 3` long, cut exactly before the last newline of the first `n` characters when there is one, else those `n` characters whole |
| Tools.ChunkBlock | agentic-research-analyst/agent/tools.py:60 | a block opens with its `[Chunk i+1]` header line; the text follows unchanged when it is within 1500 characters, and otherwise is cut to at most 1500 characters and ends in `"..."` |
| Tools.ChunkHeadersDistinct | agentic-research-analyst/agent/tools.py:59-61 | results at different positions get different `[Chunk n]` headers |
| Tools.BlockNumberOfChunkBlock | agentic-research-analyst/agent/tools.py:59-61 | the header of the block for result `i` reads back as `[Chunk i+1]` |
| Tools.FormatResults | agentic-research-analyst/agent/tools.py:59-62 | no results give `""` and one result gives its `[Chunk 1]` block; each further result adds `"\n\n"` and its block (`Tools.FormatResultsSnoc`) |
| Tools.FormatNoResults | agentic-research-analyst/agent/tools.py:59-62 | zero search results give the empty string |
| Tools.FormatResultsSnoc | agentic-research-analyst/agent/tools.py:59-62 | one more search result appends `"\n\n"` and its numbered block, keeping all earlier text |
| Tools.FormatResultsStartsWithFirstBlock | agentic-research-analyst/agent/tools.py:59-62 | with at least one result the output begins with the `[Chunk 1]` block, so it is non-empty |
| Tools.Retrieve | agentic-research-analyst/agent/tools.py:36-68 | raises when no store is set; otherwise returns the numbered blocks of the `RETRIEVE_K` search results joined by `"\n\n"` (`FormatResults`), caches exactly that text as the last context with nothing else changed, and returns `""` for no results or text opening with the `[Chunk 1]` block otherwise |
| Tools.IsPlaceholder | agentic-research-analyst/agent/tools.py:82 | a context is a placeholder exactly when it is empty or its lower-cased text contains one of the two markers |
| Tools.PlaceholderIgnoresCase | agentic-research-analyst/agent/tools.py:82 | lower-casing a context does not change whether it is a placeholder |
| Tools.PlaceholderExamples | agentic-research-analyst/agent/tools.py:82 | a capitalised marker and the empty string are placeholders; ordinary text is not |
| Tools.ResolveContext | agentic-research-analyst/agent/tools.py:82-87 | a real context passes through unchanged; a placeholder takes the first `min(4000, len)` characters of a non-empty cache; otherwise there is no context |
| Tools.AskAboutContext | agentic-research-analyst/agent/tools.py:76-94 | raises when no model is set; a real context goes to the model as is; an unresolvable placeholder answers the fixed no-context message; a resolved one goes to the model |
| Tools.SummarizeContext | agentic-research-analyst/agent/tools.py:71-95 | raises without a model; passes a real context to the model; for a placeholder, asks the model about the first 4000 characters of a non-empty cached context, and answers the no-context message when nothing is cached |
| Tools.ExtractActionItems | agentic-research-analyst/agent/tools.py:98-122 | the same four outcomes as summarising, with the action-items model |
| Tools.FreshToolsHaveNoContext | agentic-research-analyst/agent/tools.py:29-33 | right after initialisation a placeholder finds nothing cached and gets the no-context message |
| Tools.RetrieveThenAsk | agentic-research-analyst/agent/tools.py:64-85 | after a retrieval that found results, a placeholder call asks the model about the first 4000 characters of exactly the retrieved text |
| AgentMemory.NewMemory | agentic-research-analyst/agent/memory.py:5-6 | a new memory holds no items |
| AgentMemory.Add | agentic-research-analyst/agent/memory.py:8-9 | adding grows the item count by one, puts the entry last and keeps every earlier item in place |
| AgentMemory.Format | agentic-research-analyst/agent/memory.py:11-12 | an empty memory renders as `""`, and a single item renders as its string form |
| AgentMemory.FormatAfterAdd | agentic-research-analyst/agent/memory.py:8-12 | after adding to a non-empty memory the rendering is the old rendering, a newline, and the new entry's string form |
| AgentMemory.FormatFirstAdd | agentic-research-analyst/agent/memory.py:5-12 | a memory with one added entry renders as that entry's string form |
| AgentMemory.FormatSplitsBack | agentic-research-analyst/agent/memory.py:11-12 | when no string form contains a newline, splitting the rendering at newlines gives the items' string forms in insertion order |
| AgentMemory.AddPreservesOrder | agentic-research-analyst/agent/memory.py:8-9 | entries added one after another are stored in the order they were added |
| Confidence.ScoreConfidence | agentic-research-analyst/utils/confidence.py:4-8 | the score lies in [0, 1]; it is 0 exactly for the empty answer and 0.9 for any other |
| Confidence.ScoreIgnoresContent | agentic-research-analyst/utils/confidence.py:6-8 | two answers that are both empty or both non-empty get the same score |

## Left out

- `rag/vector_store.py` (FAISS and SentenceTransformer): ranking, distances and index layout live in libraries that are not part of this model. Search is a function parameter of `Tools.Retrieve`.
- Calls to the language model and the prompt texts in `agent/tools.py` (lines 89-95 and 114-122), `llm/groq_llm.py`, `llm/ollama.py` and `generate_code.py` are network I/O. The model's reply to a prompt is a function parameter.
- PDF text extraction in `rag/ingest.py` (pypdf I/O). Only its call to `chunk_text` with the defaults is modelled, as `Chunking.IngestChunks`.
- `app.py` (Streamlit UI) and the agent wiring in `agent/agent.py` are left out. That wiring does not match its callers: it imports `plan_steps`, which `agent/tools.py` does not define, and `build_agent` takes no argument, yet `app.py` passes one.
- The prompt templates in `agent/planner.py`, `agent/evaluator.py`, `agent/external_tools.py` and `prompts/agent_prompt.py`, and the `brave_search` stub (`agent/tools.py` lines 125-137), are fixed strings with no logic.
- Reading `RETRIEVE_K` from the environment at import: `Tools.ImportedState` takes the converted value as a parameter.
- Tools.SetRetrievalK: Python's `int(k)` is not modelled; its outcome is the `Option<int>` argument, `None` when the conversion raises.
- Tools.ToolState keeps only whether a store and a model were injected, not the objects. The search and the model are passed to the tools that use them.
- Tools.Truncate: the budget `n` is a natural number. The source only calls it with 1500, so Python's negative-index slicing for a negative `n` is not modelled. The `"..." if len(s) > n else ""` choice is always `"..."` on the path that reaches it.
- Tools.IsPlaceholder: lower-casing is ASCII only, not Python's full Unicode `str.lower()`.
- Tools.SummarizeContext and Tools.ExtractActionItems: the prompt text and `getattr(response, "content", str(response))` are folded into the model function parameter.
- AgentMemory.Add: entries are immutable values. In the source `add` stores a reference to the caller's dict, and `format` calls `str()` only when it runs, so a dict changed after `add` renders its new contents. That aliasing is not modelled.
- AgentMemory.Format: entries are any type, and Python's `str()` of a dict is the `show` parameter.
- Confidence.ScoreConfidence: the float scores 0.0 and 0.9 are exact reals. No arithmetic is done on them.
- Chunking.ChunkText: when `chunk_size - overlap <= 0` the source loops forever on non-empty text. The model makes an advancing start a precondition, so that non-terminating case is outside it.

=== FILE: chunking.dfy ===
/** The sliding-window chunker of rag/chunking.py: windows of `size` characters
    taken every `size - overlap` characters until the start passes the end. */
module Chunking {
  import opened Text

  /** Parameters `chunk_text` is called with by the ingestion path (rag/ingest.py). */
  const DefaultSize: int := 300
  const DefaultOverlap: int := 50

  /** The loop of `chunk_text` only terminates when the window start advances. */
  predicate Advances(size: int, overlap: int)
  {
    size - overlap > 0
  }

  /** Ceiling division for a non-negative numerator and positive divisor. */
  function CeilDiv(a: nat, d: int): nat
    requires d > 0
  {
    (a + d - 1) / d
  }

  /** Integer division is determined by any quotient/remainder pair. */
  lemma DivUnique(x: int, d: int, q: int, r: int)
    requires d > 0
    requires x == q * d + r
    requires 0 <= r < d
    ensures x / d == q
  {
    var q', r' := x / d, x % d;
    assert x == q' * d + r';
    assert (q - q') * d == r' - r;
    if q > q' {
      MulMono(1, q - q', d);
    } else if q < q' {
      MulMono(1, q' - q, d);
    }
  }

  /** `CeilDiv(a, d)` is the unique `n` with `(n - 1) * d < a <= n * d`
      (or `n == 0` when `a == 0`). */
  lemma CeilDivUnique(a: nat, d: int, n: nat)
    requires d > 0
    requires a <= n * d
    requires n == 0 || (n - 1) * d < a
    ensures CeilDiv(a, d) == n
  {
    if n == 0 {
      assert a == 0;
      DivUnique(a + d - 1, d, 0, d - 1);
    } else {
      var x := a + d - 1;
      var r := x - n * d;
      assert (n - 1) * d == n * d - d;
      DivUnique(x, d, n, r);
    }
  }

  /** Number of chunks for a text of length `len`: the starts 0, step, 2*step, ...
      that lie strictly before `len`. */
  function ChunkCount(len: nat, size: int, overlap: int): nat
    requires Advances(size, overlap)
  {
    CeilDiv(len, size - overlap)
  }

  /** Where the `i`-th window starts. */
  function ChunkStart(i: nat, size: int, overlap: int): nat
    requires Advances(size, overlap)
  {
    i * (size - overlap)
  }

  /** The `i`-th window, `text[start:start + size]` in Python. */
  function ChunkAt(text: string, i: nat, size: int, overlap: int): string
    requires Advances(size, overlap)
  {
    var start := ChunkStart(i, size, overlap);
    PySlice(text, start, start + size)
  }

  /** Closed-form description of the chunk list: one window per start before the end. */
  function Chunks(text: string, size: int, overlap: int): (cs: seq<string>)
    requires Advances(size, overlap)
    ensures |cs| == ChunkCount(|text|, size, overlap)
    ensures forall i :: 0 <= i < |cs| ==> cs[i] == ChunkAt(text, i, size, overlap)
  {
    seq(ChunkCount(|text|, size, overlap), i requires 0 <= i => ChunkAt(text, i, size, overlap))
  }

  /** A window starts before the end of the text exactly when its index is below the
      chunk count. */
  lemma StartBeforeEnd(len: nat, size: int, overlap: int, j: nat)
    requires Advances(size, overlap)
    ensures j < ChunkCount(len, size, overlap) <==> ChunkStart(j, size, overlap) < len
  {
    var step := size - overlap;
    var n := ChunkCount(len, size, overlap);
    CeilDivUpper(len, step);
    if j < n {
      MulMono(j, n - 1, step);
    } else {
      MulMono(n, j, step);
    }
  }

  lemma MulMono(a: int, b: int, d: int)
    requires 0 <= a <= b
    requires d >= 0
    ensures a * d <= b * d
  {
  }

  /** The last window starts before the end and the one after it would not. */
  lemma CeilDivUpper(a: nat, d: int)
    requires d > 0
    ensures a <= CeilDiv(a, d) * d
    ensures CeilDiv(a, d) == 0 || (CeilDiv(a, d) - 1) * d < a
  {
    var n := CeilDiv(a, d);
    var x := a + d - 1;
    assert x == n * d + x % d;
  }

  /** The chunks from window start `start` onwards, one loop iteration per element. */
  function ChunksFrom(text: string, start: nat, size: int, overlap: int): seq<string>
    requires Advances(size, overlap)
    decreases |text| - start
  {
    if start >= |text| then []
    else [PySlice(text, start, start + size)] + ChunksFrom(text, start + (size - overlap), size, overlap)
  }

  /** The iteration-by-iteration description and the closed form agree from every
      window start onwards. */
  lemma {:induction false} ChunksFromWindow(text: string, size: int, overlap: int, j: nat)
    requires Advances(size, overlap)
    requires j <= ChunkCount(|text|, size, overlap)
    ensures ChunksFrom(text, ChunkStart(j, size, overlap), size, overlap) == Chunks(text, size, overlap)[j..]
    decreases ChunkCount(|text|, size, overlap) - j
  {
    var s := ChunkStart(j, size, overlap);
    var cs := Chunks(text, size, overlap);
    StartBeforeEnd(|text|, size, overlap, j);
    if j < |cs| {
      NextStart(j, size, overlap);
      assert ChunksFrom(text, s, size, overlap)
          == [cs[j]] + ChunksFrom(text, ChunkStart(j + 1, size, overlap), size, overlap);
      ChunksFromWindow(text, size, overlap, j + 1);
      assert cs[j..] == [cs[j]] + cs[j + 1..];
    }
  }

  /** Consecutive windows start one step apart. */
  lemma NextStart(j: nat, size: int, overlap: int)
    requires Advances(size, overlap)
    ensures ChunkStart(j + 1, size, overlap) == ChunkStart(j, size, overlap) + (size - overlap)
  {
  }

  lemma ChunksFromZero(text: string, size: int, overlap: int)
    requires Advances(size, overlap)
    ensures ChunksFrom(text, 0, size, overlap) == Chunks(text, size, overlap)
  {
    ChunksFromWindow(text, size, overlap, 0);
    assert Chunks(text, size, overlap)[0..] == Chunks(text, size, overlap);
  }

  /** `chunk_text(text, chunk_size, overlap)`, written as the source's loop. */
  method ChunkText(text: string, size: int, overlap: int) returns (chunks: seq<string>)
    requires Advances(size, overlap)
    ensures |chunks| == ChunkCount(|text|, size, overlap)
    ensures forall i :: 0 <= i < |chunks| ==>
              chunks[i] == PySlice(text, i * (size - overlap), i * (size - overlap) + size)
  {
    var step := size - overlap;
    chunks := [];
    var start := 0;
    while start < |text|
      invariant start == |chunks| * step
      invariant |chunks| == 0 || (|chunks| - 1) * step < |text|
      invariant forall i :: 0 <= i < |chunks| ==> chunks[i] == ChunkAt(text, i, size, overlap)
      decreases |text| - start
    {
      chunks := chunks + [PySlice(text, start, start + size)];
      start := start + step;
    }
    CeilDivUnique(|text|, step, |chunks|);
  }

  /** The ingestion path's call, `chunk_text(text)` with the default parameters:
      windows of 300 characters every 250 characters. */
  method IngestChunks(text: string) returns (chunks: seq<string>)
    ensures |chunks| == CeilDiv(|text|, 250)
    ensures forall i :: 0 <= i < |chunks| ==> chunks[i] == PySlice(text, i * 250, i * 250 + 300)
  {
    chunks := ChunkText(text, DefaultSize, DefaultOverlap);
  }

  /** The `i`-th chunk is the contiguous piece of the text from its start, clipped at
      the end of the text; for a positive size it is non-empty and at most `size` long. */
  lemma ChunkShape(text: string, size: int, overlap: int, i: nat)
    requires Advances(size, overlap)
    requires size > 0
    requires i < ChunkCount(|text|, size, overlap)
    ensures ChunkStart(i, size, overlap) < |text|
    ensures var c := ChunkAt(text, i, size, overlap);
            var s := ChunkStart(i, size, overlap);
            && 0 < |c| <= size
            && |c| == (if s + size <= |text| then size else |text| - s)
            && c == text[s..s + |c|]
  {
    StartBeforeEnd(|text|, size, overlap, i);
  }

  /** Empty text yields no chunks. */
  lemma EmptyTextNoChunks(size: int, overlap: int)
    requires Advances(size, overlap)
    ensures Chunks([], size, overlap) == []
  {
  }

  /** A non-empty text no longer than one step yields exactly one chunk: the text itself. */
  lemma ShortTextOneChunk(text: string, size: int, overlap: int)
    requires 0 <= overlap < size
    requires 0 < |text| <= size - overlap
    ensures Chunks(text, size, overlap) == [text]
  {
    var step := size - overlap;
    CeilDivUnique(|text|, step, 1);
    assert ChunkAt(text, 0, size, overlap) == text;
  }

  /** A non-empty text that fits in one window comes back whole as the first chunk;
      any further chunk is a later piece of that same text. */
  lemma FittingTextFirstChunk(text: string, size: int, overlap: int)
    requires 0 <= overlap < size
    requires 0 < |text| <= size
    ensures |Chunks(text, size, overlap)| >= 1
    ensures Chunks(text, size, overlap)[0] == text
    ensures forall i :: 1 <= i < |Chunks(text, size, overlap)| ==>
              && ChunkStart(i, size, overlap) < |text|
              && Chunks(text, size, overlap)[i] == text[ChunkStart(i, size, overlap)..]
  {
    var cs := Chunks(text, size, overlap);
    StartBeforeEnd(|text|, size, overlap, 0);
    FirstChunkWhole(text, size, overlap);
    forall i | 1 <= i < |cs|
      ensures ChunkStart(i, size, overlap) < |text| && cs[i] == text[ChunkStart(i, size, overlap)..]
    {
      LaterChunkSuffix(text, size, overlap, i);
    }
  }

  lemma FirstChunkWhole(text: string, size: int, overlap: int)
    requires Advances(size, overlap)
    requires |text| <= size
    ensures ChunkAt(text, 0, size, overlap) == text
  {
    assert ChunkStart(0, size, overlap) == 0;
  }

  lemma LaterChunkSuffix(text: string, size: int, overlap: int, i: nat)
    requires Advances(size, overlap)
    requires 0 < size
    requires |text| <= size
    requires i < ChunkCount(|text|, size, overlap)
    ensures ChunkStart(i, size, overlap) < |text|
    ensures ChunkAt(text, i, size, overlap) == text[ChunkStart(i, size, overlap)..]
  {
    ChunkShape(text, size, overlap, i);
    var st := ChunkStart(i, size, overlap);
    var c := ChunkAt(text, i, size, overlap);
    if st + size <= |text| {
      assert st == 0 && |c| == |text|;
    } else {
      assert |c| == |text| - st;
    }
    assert st + |c| == |text|;
  }

  /** A text longer than one step always yields at least two chunks, however
      much of it fits in the first window; exactly two when it is at most two
      steps long. */
  lemma LongerThanStepSeveralChunks(text: string, size: int, overlap: int)
    requires Advances(size, overlap)
    requires |text| > size - overlap
    ensures |Chunks(text, size, overlap)| >= 2
    ensures |text| <= 2 * (size - overlap) ==> |Chunks(text, size, overlap)| == 2
  {
    StartBeforeEnd(|text|, size, overlap, 1);
    if |text| <= 2 * (size - overlap) {
      CeilDivUnique(|text|, size - overlap, 2);
    }
  }

  /** When the text is longer than one step, a second chunk appears even if the text
      fits in one window: with the defaults, 290 characters give two chunks,
      the whole text and its last 40 characters again. */
  lemma FittingTextTwoChunks(text: string)
    requires |text| == 290
    ensures Chunks(text, DefaultSize, DefaultOverlap) == [text, text[250..]]
  {
    CeilDivUnique(290, 250, 2);
    assert ChunkAt(text, 0, DefaultSize, DefaultOverlap) == text;
  }

  /** A large overlap multiplies the chunks of a text that fits in one window:
      300 characters with windows of 300 advancing by 50 give six chunks. */
  lemma LargeOverlapSixChunks(text: string)
    requires |text| == 300
    ensures |Chunks(text, 300, 250)| == 6
    ensures Chunks(text, 300, 250)[0] == text
  {
    CeilDivUnique(300, 50, 6);
  }

  /** Consecutive full windows share exactly `overlap` characters: the tail of chunk
      `i` is the head of chunk `i + 1`. */
  lemma ConsecutiveOverlap(text: string, size: int, overlap: int, i: nat)
    requires 0 <= overlap < size
    requires i + 1 < ChunkCount(|text|, size, overlap)
    requires |ChunkAt(text, i, size, overlap)| == size
    ensures |ChunkAt(text, i + 1, size, overlap)| >= overlap
    ensures ChunkAt(text, i, size, overlap)[size - overlap..]
         == ChunkAt(text, i + 1, size, overlap)[..overlap]
  {
    var step := size - overlap;
    ChunkShape(text, size, overlap, i);
    ChunkShape(text, size, overlap, i + 1);
    var s := ChunkStart(i, size, overlap);
    assert ChunkStart(i + 1, size, overlap) == s + step;
  }

  /** Coverage: every character of the text lies inside some chunk, at the matching
      offset, when windows overlap or abut (`0 <= overlap < size`). */
  lemma ChunksCover(text: string, size: int, overlap: int, p: nat)
    requires 0 <= overlap < size
    requires p < |text|
    ensures exists i :: 0 <= i < ChunkCount(|text|, size, overlap)
              && ChunkStart(i, size, overlap) <= p < ChunkStart(i, size, overlap) + |ChunkAt(text, i, size, overlap)|
              && ChunkAt(text, i, size, overlap)[p - ChunkStart(i, size, overlap)] == text[p]
  {
    var i := WindowContaining(p, size, overlap);
    var s := ChunkStart(i, size, overlap);
    StartBeforeEnd(|text|, size, overlap, i);
    ChunkShape(text, size, overlap, i);
    var c := ChunkAt(text, i, size, overlap);
    assert p < s + |c|;
    assert c[p - s] == text[p];
  }

  /** The window whose first `step` positions hold position `p`. */
  lemma WindowContaining(p: nat, size: int, overlap: int) returns (i: nat)
    requires Advances(size, overlap)
    ensures ChunkStart(i, size, overlap) <= p < ChunkStart(i, size, overlap) + (size - overlap)
  {
    i := p / (size - overlap);
  }

  /** Rebuilds the text from its chunks: the first `step` characters of every chunk but
      the last, then the whole last chunk. */
  function Reassemble(cs: seq<string>, step: nat): string
    decreases |cs|
  {
    if |cs| == 0 then []
    else if |cs| == 1 then cs[0]
    else (if step <= |cs[0]| then cs[0][..step] else cs[0]) + Reassemble(cs[1..], step)
  }

  /** Reassembling a list of at least two chunks keeps the first `step` characters
      of the head. */
  lemma ReassembleCons(c: string, rest: seq<string>, step: nat)
    requires |rest| >= 1
    requires step <= |c|
    ensures Reassemble([c] + rest, step) == c[..step] + Reassemble(rest, step)
  {
    assert ([c] + rest)[1..] == rest;
  }

  /** The window at `start`, as a plain slice of the text. */
  lemma WindowSlice(text: string, start: nat, size: int, overlap: int)
    requires 0 <= overlap < size
    requires start < |text|
    ensures var c := PySlice(text, start, start + size);
            && |c| >= 1
            && c == text[start..if start + size <= |text| then start + size else |text|]
  {
  }

  /** A suffix splits at any later index. */
  lemma SliceSplit(s: string, a: nat, b: nat)
    requires a <= b <= |s|
    ensures s[a..] == s[a..b] + s[b..]
  {
  }

  /** A prefix of a slice is a shorter slice from the same start. */
  lemma SlicePrefix(s: string, a: nat, e: nat, k: nat)
    requires a + k <= e <= |s|
    ensures s[a..e][..k] == s[a..a + k]
  {
  }

  /** Reassembling the chunks from window start `start` gives the text from `start`. */
  lemma {:induction false} ReassembleFrom(text: string, start: nat, size: int, overlap: int)
    requires 0 <= overlap < size
    requires start <= |text|
    ensures Reassemble(ChunksFrom(text, start, size, overlap), size - overlap) == text[start..]
    decreases |text| - start
  {
    var step := size - overlap;
    if start < |text| {
      var c := PySlice(text, start, start + size);
      var rest := ChunksFrom(text, start + step, size, overlap);
      assert ChunksFrom(text, start, size, overlap) == [c] + rest;
      WindowSlice(text, start, size, overlap);
      if start + step >= |text| {
        assert rest == [];
      } else {
        assert |rest| >= 1;
        ReassembleCons(c, rest, step);
        ReassembleFrom(text, start + step, size, overlap);
        SlicePrefix(text, start, if start + size <= |text| then start + size else |text|, step);
        SliceSplit(text, start, start + step);
      }
    }
  }

  /** The chunks lose nothing: reassembled in order they give back the whole text. */
  lemma ReassembleChunks(text: string, size: int, overlap: int)
    requires 0 <= overlap < size
    ensures Reassemble(Chunks(text, size, overlap), size - overlap) == text
  {
    ChunksFromZero(text, size, overlap);
    ReassembleFrom(text, 0, size, overlap);
  }

  /** With the defaults, a 1000-character text gives four chunks, the last 250 long. */
  lemma DefaultThousandCharacters(text: string)
    requires |text| == 1000
    ensures |Chunks(text, DefaultSize, DefaultOverlap)| == 4
    ensures |Chunks(text, DefaultSize, DefaultOverlap)[3]| == 250
  {
    assert ChunkStart(3, DefaultSize, DefaultOverlap) == 750;
  }
}

=== FILE: confidence.dfy ===
/** The confidence stub of utils/confidence.py: a fixed score for any
    non-empty answer. The two float literals are exact reals here. */
module Confidence {

  const EmptyScore: real := 0.0
  const AnswerScore: real := 0.9

  /** `score_confidence(answer)`: zero for an empty answer, 0.9 otherwise. */
  function ScoreConfidence(answer: string): (r: real)
    ensures 0.0 <= r <= 1.0
    ensures r == 0.0 <==> |answer| == 0
    ensures |answer| > 0 ==> r == 0.9
  {
    if |answer| == 0 then EmptyScore else AnswerScore
  }

  /** The score looks only at whether the answer is empty, never at its content. */
  lemma ScoreIgnoresContent(a: string, b: string)
    requires (|a| == 0) == (|b| == 0)
    ensures ScoreConfidence(a) == ScoreConfidence(b)
  {
  }
}

=== FILE: memory.dfy ===
/** The agent memory of agent/memory.py: an append-only list of entries and a
    newline-joined rendering. Entries are Python dicts in the source; here they
    are any type `T`, and `show` stands for Python's `str()` on an entry. */
module AgentMemory {
  import opened Text

  datatype Memory<T> = Memory(items: seq<T>)

  /** `Memory()`: nothing remembered yet. */
  function NewMemory<T>(): (m: Memory<T>)
    ensures |m.items| == 0
  {
    Memory([])
  }

  /** `Memory.add(entry)`: one more item, placed last; earlier items keep their
      values and their order. */
  function Add<T>(m: Memory<T>, entry: T): (m': Memory<T>)
    ensures |m'.items| == |m.items| + 1
    ensures m'.items[|m.items|] == entry
    ensures m'.items[..|m.items|] == m.items
  {
    Memory(m.items + [entry])
  }

  /** The string forms of the items, in insertion order. */
  function Rendered<T>(items: seq<T>, show: T -> string): (rs: seq<string>)
    ensures |rs| == |items|
    ensures forall i :: 0 <= i < |items| ==> rs[i] == show(items[i])
  {
    seq(|items|, i requires 0 <= i < |items| => show(items[i]))
  }

  /** `Memory.format()`: the items' string forms joined by newlines. Only the
      memory is read, so the stored items are the same afterwards. */
  function Format<T>(m: Memory<T>, show: T -> string): (s: string)
    ensures |m.items| == 0 ==> s == []
    ensures |m.items| == 1 ==> s == show(m.items[0])
  {
    Join(Rendered(m.items, show), "\n")
  }

  /** Adding an entry to a non-empty memory extends its rendering by a newline
      and the entry's string form; what was rendered before is kept as is. */
  lemma FormatAfterAdd<T>(m: Memory<T>, entry: T, show: T -> string)
    requires |m.items| >= 1
    ensures Format(Add(m, entry), show) == Format(m, show) + "\n" + show(entry)
  {
    assert Rendered(m.items + [entry], show) == Rendered(m.items, show) + [show(entry)];
    JoinSnoc(Rendered(m.items, show), show(entry), "\n");
  }

  /** Adding to an empty memory renders just the new entry. */
  lemma FormatFirstAdd<T>(entry: T, show: T -> string)
    ensures Format(Add(NewMemory(), entry), show) == show(entry)
  {
  }

  /** When no entry's string form contains a newline, splitting the rendering at
      newlines gives back each entry's string form, in insertion order. */
  lemma FormatSplitsBack<T>(m: Memory<T>, show: T -> string)
    requires |m.items| >= 1
    requires forall i :: 0 <= i < |m.items| ==> '\n' !in show(m.items[i])
    ensures Split(Format(m, show), '\n') == Rendered(m.items, show)
  {
    SplitJoin(Rendered(m.items, show), '\n');
  }

  /** Entries added one after another come out in the order they were added. */
  lemma AddPreservesOrder<T>(m: Memory<T>, a: T, b: T)
    ensures Add(Add(m, a), b).items == m.items + [a, b]
  {
  }
}

=== FILE: text.dfy ===
/** String helpers shared by the chunker, the retrieval tools and the memory log.
    Each one stands for a piece of Python's built-in string behaviour that the
    modelled code relies on: slicing with clipped (and possibly negative) bounds,
    `sep.join(parts)`, `s.split(c)`, `sub in s`, ASCII lower-casing and the
    decimal rendering of an `int` inside an f-string. */
module Text {

  datatype Option<+T> = None | Some(value: T)

  /** Python's normalisation of one slice bound against a length:
      a negative bound counts from the end, and the result is clipped to [0, len]. */
  function SliceBound(i: int, len: nat): (b: nat)
    ensures b <= len
    ensures 0 <= i <= len ==> b == i
    ensures i > len ==> b == len
    ensures i < 0 ==> b == (if i + len < 0 then 0 else i + len)
  {
    if i < 0 then (if i + len < 0 then 0 else i + len)
    else if i > len then len
    else i
  }

  /** `s[lo:hi]` with Python's step-1 slicing semantics: bounds are normalised
      and an empty range yields the empty string instead of an error. */
  function PySlice(s: string, lo: int, hi: int): (r: string)
    ensures |r| <= |s|
    ensures 0 <= lo <= |s| && lo <= hi ==> r == s[lo..if hi <= |s| then hi else |s|]
    ensures lo >= |s| ==> r == []
  {
    var a := SliceBound(lo, |s|);
    var b := SliceBound(hi, |s|);
    if a >= b then [] else s[a..b]
  }

  /** `sep.join(parts)`. */
  function Join(parts: seq<string>, sep: string): (r: string)
    ensures |parts| == 0 ==> r == []
    ensures |parts| == 1 ==> r == parts[0]
    ensures |parts| >= 1 ==> |r| >= |parts[0]|
    decreases |parts|
  {
    if |parts| == 0 then []
    else if |parts| == 1 then parts[0]
    else parts[0] + sep + Join(parts[1..], sep)
  }

  /** Joining one more part onto a non-empty list adds exactly one separator
      and the new part at the end; nothing before it changes. */
  lemma {:induction false} JoinSnoc(parts: seq<string>, x: string, sep: string)
    requires |parts| >= 1
    ensures Join(parts + [x], sep) == Join(parts, sep) + sep + x
    decreases |parts|
  {
    if |parts| == 1 {
      assert (parts + [x])[1..] == [x];
    } else {
      assert (parts + [x])[1..] == parts[1..] + [x];
      JoinSnoc(parts[1..], x, sep);
    }
  }

  /** `s.split(c)` for a one-character separator: always at least one field,
      and the fields never contain the separator. */
  function Split(s: string, c: char): (r: seq<string>)
    ensures |r| >= 1
    ensures forall k :: 0 <= k < |r| ==> c !in r[k]
    decreases |s|
  {
    if |s| == 0 then [[]]
    else if s[0] == c then [[]] + Split(s[1..], c)
    else
      var rest := Split(s[1..], c);
      [[s[0]] + rest[0]] + rest[1..]
  }

  /** A string without the separator is a single field. */
  lemma {:induction false} SplitNoSeparator(a: string, c: char)
    requires c !in a
    ensures Split(a, c) == [a]
    decreases |a|
  {
    if |a| > 0 {
      assert c !in a[1..];
      SplitNoSeparator(a[1..], c);
      assert [a[0]] + a[1..] == a;
    }
  }

  /** Splitting at the first separator peels off exactly the field before it. */
  lemma {:induction false} SplitFirst(a: string, b: string, c: char)
    requires c !in a
    ensures Split(a + [c] + b, c) == [a] + Split(b, c)
    decreases |a|
  {
    var s := a + [c] + b;
    if |a| == 0 {
      assert s[0] == c;
      assert s[1..] == b;
    } else {
      assert s[0] == a[0];
      assert s[1..] == a[1..] + [c] + b;
      assert c !in a[1..];
      SplitFirst(a[1..], b, c);
      assert [a[0]] + a[1..] == a;
    }
  }

  /** `s.split(c)` undoes `c.join(parts)` when no part contains the separator
      and there is at least one part (the empty list and `[""]` both join to `""`). */
  lemma {:induction false} SplitJoin(parts: seq<string>, c: char)
    requires |parts| >= 1
    requires forall k :: 0 <= k < |parts| ==> c !in parts[k]
    ensures Split(Join(parts, [c]), c) == parts
    decreases |parts|
  {
    if |parts| == 1 {
      SplitNoSeparator(parts[0], c);
    } else {
      SplitFirst(parts[0], Join(parts[1..], [c]), c);
      SplitJoin(parts[1..], c);
      assert [parts[0]] + parts[1..] == parts;
    }
  }

  /** `p` occurs in `s` starting at index `i`. */
  ghost predicate OccursAt(s: string, p: string, i: nat)
  {
    i + |p| <= |s| && s[i..i + |p|] == p
  }

  /** The meaning of Python's `p in s` for strings. */
  ghost predicate Occurs(s: string, p: string)
  {
    exists i: nat :: OccursAt(s, p, i)
  }

  /** Executable substring search, scanning left to right. */
  function Contains(s: string, p: string): (r: bool)
    ensures r <==> Occurs(s, p)
    decreases |s|
  {
    if |p| > |s| then
      assert forall i: nat :: !OccursAt(s, p, i);
      false
    else if s[..|p|] == p then
      assert OccursAt(s, p, 0);
      true
    else
      var r := Contains(s[1..], p);
      assert forall i: nat :: OccursAt(s[1..], p, i) <==> OccursAt(s, p, i + 1);
      assert Occurs(s, p) ==> Occurs(s[1..], p) by {
        if Occurs(s, p) {
          var i: nat :| OccursAt(s, p, i);
          assert i != 0;
          assert OccursAt(s[1..], p, i - 1);
        }
      }
      r
  }

  predicate IsUpper(c: char)
  {
    'A' <= c <= 'Z'
  }

  /** ASCII lower-casing of one character; every other character is left alone. */
  function LowerChar(c: char): (d: char)
    ensures !IsUpper(d)
    ensures !IsUpper(c) ==> d == c
    ensures IsUpper(c) ==> d as int - c as int == 'a' as int - 'A' as int
  {
    if IsUpper(c) then (c as int - 'A' as int + 'a' as int) as char else c
  }

  /** `s.lower()` restricted to ASCII letters. */
  function Lower(s: string): (r: string)
    ensures |r| == |s|
    ensures forall i :: 0 <= i < |s| ==> r[i] == LowerChar(s[i])
  {
    seq(|s|, i requires 0 <= i < |s| => LowerChar(s[i]))
  }

  /** Lower-casing is idempotent, and leaves text without capitals unchanged. */
  lemma LowerIdempotent(s: string)
    ensures Lower(Lower(s)) == Lower(s)
    ensures (forall i :: 0 <= i < |s| ==> !IsUpper(s[i])) ==> Lower(s) == s
  {
  }

  function DigitChar(d: nat): (c: char)
    requires d < 10
    ensures '0' <= c <= '9'
  {
    ('0' as int + d) as char
  }

  /** The decimal rendering of a natural number, as `f"{n}"` produces it. */
  function Decimal(n: nat): (r: string)
    ensures |r| >= 1
    ensures forall k :: 0 <= k < |r| ==> '0' <= r[k] <= '9'
    ensures n > 0 ==> r[0] != '0'
    decreases n
  {
    if n < 10 then [DigitChar(n)] else Decimal(n / 10) + [DigitChar(n % 10)]
  }

  /** Reads back a string of decimal digits. */
  function ParseDecimal(s: string): nat
    requires forall k :: 0 <= k < |s| ==> '0' <= s[k] <= '9'
    decreases |s|
  {
    if |s| == 0 then 0
    else ParseDecimal(s[..|s| - 1]) * 10 + (s[|s| - 1] as int - '0' as int)
  }

  /** Rendering a number and reading it back gives the number. */
  lemma {:induction false} DecimalRoundTrip(n: nat)
    ensures ParseDecimal(Decimal(n)) == n
    decreases n
  {
    if n >= 10 {
      var s := Decimal(n);
      assert s[..|s| - 1] == Decimal(n / 10);
      DecimalRoundTrip(n / 10);
    }
  }

  /** Different numbers render differently. */
  lemma DecimalInjective(m: nat, n: nat)
    requires Decimal(m) == Decimal(n)
    ensures m == n
  {
    DecimalRoundTrip(m);
    DecimalRoundTrip(n);
  }
}

=== FILE: tools.dfy ===
/** The agent tools of agent/tools.py. The module globals (`RETRIEVE_K`,
    `_vector_store`, `_llm`, `_last_context`) become one explicit `ToolState`
    that each tool takes and, where the source assigns a global, returns. The
    vector store's similarity search and the language model are passed in as
    functions: their internals are outside the model. */
module Tools {
  import opened Text

  /** `RETRIEVE_K` when the `RETRIEVE_K` environment variable is unset. */
  const DefaultRetrieveK: int := 4
  /** Per-chunk character budget used by `retrieve_context`. */
  const ChunkBudget: nat := 1500
  /** How much of the cached context summarise/extract fall back to. */
  const CachedContextBudget: nat := 4000
  const Ellipsis: string := "..."
  const ChunkSeparator: string := "\n\n"
  const MarkerRetrieved: string := "document context retrieved"
  const MarkerNotProvided: string := "you haven't provided"
  const NoContextMessage: string :=
    "No document context available. Please run `retrieve_context` first or provide the document text."

  /** The module globals. `hasStore`/`hasLlm` say whether `_vector_store`/`_llm`
      are not `None`; `lastContext` is `_last_context`. */
  datatype ToolState = ToolState(retrieveK: int, hasStore: bool, hasLlm: bool, lastContext: Option<string>)

  /** The two `RuntimeError`s the tools raise. */
  datatype ToolError = StoreNotInitialized | LlmNotInitialized

  /** A tool either returns a value or raises; a raised tool changes no global. */
  datatype Outcome<+T> = Done(value: T) | Raised(error: ToolError)

  /** What `retrieve_context` returns together with the globals after it. */
  datatype Retrieval = Retrieval(context: string, state: ToolState)

  /** The globals right after import: nothing injected, no cached context, and
      `RETRIEVE_K` from the environment (`envK`, 4 when unset). */
  function ImportedState(envK: int): (st: ToolState)
    ensures !st.hasStore && !st.hasLlm && st.lastContext.None?
    ensures st.retrieveK == envK
  {
    ToolState(envK, false, false, None)
  }

  /** With `RETRIEVE_K` unset in the environment the tools start with 4 results
      per search. */
  lemma UnsetEnvironmentRetrievesFour()
    ensures ImportedState(DefaultRetrieveK).retrieveK == 4
    ensures SetRetrievalK(ImportedState(DefaultRetrieveK), None) == ImportedState(DefaultRetrieveK)
  {
  }

  /** `set_retrieval_k(k)`. `converted` is the outcome of Python's `int(k)`:
      `None` when the conversion raises, in which case nothing changes. */
  function SetRetrievalK(st: ToolState, converted: Option<int>): (st': ToolState)
    ensures converted.None? ==> st' == st
    ensures converted.Some? ==>
              && st'.retrieveK >= 1
              && st'.retrieveK >= converted.value
              && (st'.retrieveK == 1 || st'.retrieveK == converted.value)
    ensures st'.hasStore == st.hasStore && st'.hasLlm == st.hasLlm && st'.lastContext == st.lastContext
  {
    match converted
    case None => st
    case Some(k) => st.(retrieveK := if k < 1 then 1 else k)
  }

  /** Setting the same value twice is the same as setting it once, and a
      positive value is taken as given. */
  lemma SetRetrievalKIdempotent(st: ToolState, k: int)
    ensures SetRetrievalK(SetRetrievalK(st, Some(k)), Some(k)) == SetRetrievalK(st, Some(k))
    ensures k >= 1 ==> SetRetrievalK(st, Some(k)).retrieveK == k
  {
  }

  /** `initialize_tools(vector_store, llm)`: stores both handles (`storeGiven`,
      `llmGiven` say whether they are not `None`) and forgets the cached context. */
  function InitializeTools(st: ToolState, storeGiven: bool, llmGiven: bool): (st': ToolState)
    ensures st'.hasStore == storeGiven && st'.hasLlm == llmGiven
    ensures st'.lastContext.None?
    ensures st'.retrieveK == st.retrieveK
  {
    ToolState(st.retrieveK, storeGiven, llmGiven, None)
  }

  /** Index of the last occurrence of `c` in `s`, as `str.rfind` finds it. */
  function LastIndexOf(s: string, c: char): (r: Option<nat>)
    ensures r.None? <==> c !in s
    ensures r.Some? ==> r.value < |s| && s[r.value] == c && c !in s[r.value + 1..]
    decreases |s|
  {
    if |s| == 0 then None
    else if s[|s| - 1] == c then Some(|s| - 1)
    else
      var r := LastIndexOf(s[..|s| - 1], c);
      assert s[..|s| - 1] + [s[|s| - 1]] == s;
      assert r.Some? ==> s[r.value + 1..] == s[..|s| - 1][r.value + 1..] + [s[|s| - 1]];
      r
  }

  /** `_truncate(s, n)`: text within the budget is returned as is; longer text
      is cut to its first `n` characters, further back to just before the last
      newline among them if there is one, and marked with `"..."`. */
  function Truncate(s: string, n: nat): (r: string)
    ensures |s| <= n ==> r == s
    ensures |s| > n ==>
              && |r| >= |Ellipsis|
              && r[|r| - |Ellipsis|..] == Ellipsis
              && |r| - |Ellipsis| <= n
              && r[..|r| - |Ellipsis|] == s[..|r| - |Ellipsis|]
    ensures |s| > n && '\n' !in s[..n] ==> r == s[..n] + Ellipsis
    ensures |s| > n && '\n' in s[..n] ==>
              && |r| - |Ellipsis| < n
              && s[|r| - |Ellipsis|] == '\n'
              && '\n' !in s[|r| - |Ellipsis| + 1..n]
  {
    if |s| == 0 then s
    else if |s| <= n then s
    else
      var part := s[..n];
      var kept := match LastIndexOf(part, '\n')
                  case Some(j) => assert s[j + 1..n] == part[j + 1..]; part[..j]
                  case None => part;
      kept + Ellipsis
  }

  /** The header `f"[Chunk {i+1}]\n"` of the block for zero-based result `i`. */
  function ChunkHeader(i: nat): string
  {
    "[Chunk " + Decimal(i + 1) + "]\n"
  }

  /** Different results get different headers. */
  lemma ChunkHeadersDistinct(i: nat, j: nat)
    requires i != j
    ensures ChunkHeader(i) != ChunkHeader(j)
  {
    if ChunkHeader(i) == ChunkHeader(j) {
      var di, dj := Decimal(i + 1), Decimal(j + 1);
      assert |di| == |dj|;
      assert di == ChunkHeader(i)[7..7 + |di|];
      assert dj == ChunkHeader(j)[7..7 + |dj|];
      DecimalInjective(i + 1, j + 1);
    }
  }

  /** One result block, `f"[Chunk {i+1}]\n{_truncate(text, 1500)}"` for the
      zero-based result index `i`. */
  function ChunkBlock(i: nat, text: string): (r: string)
    ensures |r| >= |ChunkHeader(i)| && r[..|ChunkHeader(i)|] == ChunkHeader(i)
    ensures |r| <= |ChunkHeader(i)| + ChunkBudget + |Ellipsis|
    ensures |text| <= ChunkBudget ==> r[|ChunkHeader(i)|..] == text
    ensures |text| > ChunkBudget ==> r[|r| - |Ellipsis|..] == Ellipsis
  {
    ChunkHeader(i) + Truncate(text, ChunkBudget)
  }

  /** The blocks for the search results, in result order. */
  function ChunkBlocks(docs: seq<string>): (bs: seq<string>)
    ensures |bs| == |docs|
    ensures forall i :: 0 <= i < |docs| ==> bs[i] == ChunkBlock(i, docs[i])
  {
    seq(|docs|, i requires 0 <= i < |docs| => ChunkBlock(i, docs[i]))
  }

  /** The text `retrieve_context` returns for the given search results: no
      results give `""` and one result gives its block; `FormatResultsSnoc`
      states what each further result adds. */
  function FormatResults(docs: seq<string>): (r: string)
    ensures |docs| == 0 ==> r == []
    ensures |docs| == 1 ==> r == ChunkBlock(0, docs[0])
  {
    Join(ChunkBlocks(docs), ChunkSeparator)
  }

  /** The length of the run of decimal digits at the front of `s`. */
  function DigitRun(s: string): (k: nat)
    ensures k <= |s|
    ensures forall j :: 0 <= j < k ==> '0' <= s[j] <= '9'
    ensures k < |s| ==> !('0' <= s[k] <= '9')
    decreases |s|
  {
    if |s| > 0 && '0' <= s[0] <= '9' then 1 + DigitRun(s[1..]) else 0
  }

  /** Reads the 1-based chunk number back out of a block's `[Chunk n]` header. */
  function BlockNumber(b: string): Option<nat>
  {
    var prefix := "[Chunk ";
    if |b| < |prefix| || b[..|prefix|] != prefix then None
    else
      var rest := b[|prefix|..];
      var k := DigitRun(rest);
      if k == 0 || k + 1 >= |rest| || rest[k] != ']' || rest[k + 1] != '\n' then None
      else Some(ParseDecimal(rest[..k]))
  }

  lemma {:induction false} DigitRunOfDecimal(digits: string, tail: string)
    requires forall j :: 0 <= j < |digits| ==> '0' <= digits[j] <= '9'
    requires |tail| > 0 && !('0' <= tail[0] <= '9')
    ensures DigitRun(digits + tail) == |digits|
    decreases |digits|
  {
    if |digits| > 0 {
      assert (digits + tail)[1..] == digits[1..] + tail;
      DigitRunOfDecimal(digits[1..], tail);
    }
  }

  /** Every block's header carries its 1-based position, and reading it back
      recovers that position. */
  lemma BlockNumberOfChunkBlock(i: nat, text: string)
    ensures BlockNumber(ChunkBlock(i, text)) == Some(i + 1)
  {
    var d := Decimal(i + 1);
    var tail := "]\n" + Truncate(text, ChunkBudget);
    var b := ChunkBlock(i, text);
    assert b == "[Chunk " + (d + tail);
    assert b[..7] == "[Chunk ";
    var rest := b[7..];
    assert rest == d + tail;
    DigitRunOfDecimal(d, tail);
    assert rest[|d|] == ']' && rest[|d| + 1] == '\n';
    assert rest[..|d|] == d;
    DecimalRoundTrip(i + 1);
  }

  /** No search results give the empty string. */
  lemma FormatNoResults()
    ensures FormatResults([]) == []
  {
  }

  /** One more search result adds one separator and its block at the end;
      the blocks before it are untouched. */
  lemma FormatResultsSnoc(docs: seq<string>, d: string)
    requires |docs| >= 1
    ensures FormatResults(docs + [d]) == FormatResults(docs) + ChunkSeparator + ChunkBlock(|docs|, d)
  {
    assert ChunkBlocks(docs + [d]) == ChunkBlocks(docs) + [ChunkBlock(|docs|, d)];
    JoinSnoc(ChunkBlocks(docs), ChunkBlock(|docs|, d), ChunkSeparator);
  }

  /** With at least one result the output opens with the first block, so it is
      never empty. */
  lemma FormatResultsStartsWithFirstBlock(docs: seq<string>)
    requires |docs| >= 1
    ensures |FormatResults(docs)| >= |ChunkBlock(0, docs[0])| > 0
    ensures FormatResults(docs)[..|ChunkBlock(0, docs[0])|] == ChunkBlock(0, docs[0])
  {
    var bs := ChunkBlocks(docs);
    if |bs| > 1 {
      assert Join(bs, ChunkSeparator) == bs[0] + ChunkSeparator + Join(bs[1..], ChunkSeparator);
    }
  }

  /** `retrieve_context(query)`: raises when no vector store is set; otherwise
      asks the store for `RETRIEVE_K` results, formats them and caches the text
      as the last context. `search` stands for `_vector_store.similarity_search`. */
  function Retrieve(st: ToolState, query: string, search: (string, int) -> seq<string>): (o: Outcome<Retrieval>)
    ensures !st.hasStore ==> o == Raised(StoreNotInitialized)
    ensures st.hasStore ==> o.Done?
    ensures o.Done? ==> o.value.context == FormatResults(search(query, st.retrieveK))
    ensures o.Done? ==>
              && o.value.state == st.(lastContext := Some(o.value.context))
              && (|search(query, st.retrieveK)| == 0 ==> o.value.context == [])
              && (|search(query, st.retrieveK)| >= 1 ==>
                    && |o.value.context| >= |ChunkBlock(0, search(query, st.retrieveK)[0])|
                    && o.value.context[..|ChunkBlock(0, search(query, st.retrieveK)[0])|]
                    == ChunkBlock(0, search(query, st.retrieveK)[0]))
  {
    if !st.hasStore then Raised(StoreNotInitialized)
    else
      var docs := search(query, st.retrieveK);
      var result := FormatResults(docs);
      if |docs| >= 1 then
        FormatResultsStartsWithFirstBlock(docs);
        Done(Retrieval(result, st.(lastContext := Some(result))))
      else
        Done(Retrieval(result, st.(lastContext := Some(result))))
  }

  /** The placeholder test of `summarize_context` and `extract_action_items`:
      an empty context, or one that mentions either marker in any letter case. */
  function IsPlaceholder(context: string): (b: bool)
    ensures b <==> |context| == 0
                   || Occurs(Lower(context), MarkerRetrieved)
                   || Occurs(Lower(context), MarkerNotProvided)
  {
    |context| == 0
    || Contains(Lower(context), MarkerRetrieved)
    || Contains(Lower(context), MarkerNotProvided)
  }

  /** The placeholder test ignores letter case. */
  lemma PlaceholderIgnoresCase(context: string)
    ensures IsPlaceholder(Lower(context)) == IsPlaceholder(context)
  {
    LowerIdempotent(context);
  }

  /** A capitalised marker is still recognised, and ordinary text is not. */
  lemma PlaceholderExamples()
    ensures IsPlaceholder("Document Context Retrieved above")
    ensures IsPlaceholder("")
    ensures !IsPlaceholder("Revenue grew")
  {
    var s := "Document Context Retrieved above";
    assert Lower(s)[..|MarkerRetrieved|] == MarkerRetrieved by {
      forall i | 0 <= i < |MarkerRetrieved|
        ensures Lower(s)[i] == MarkerRetrieved[i]
      {
      }
    }
    assert OccursAt(Lower(s), MarkerRetrieved, 0);
  }

  /** Which context the model is asked about. */
  datatype Resolution = UseContext(text: string) | NoContext

  /** The context-resolution branch shared by `summarize_context` and
      `extract_action_items`: a real context is passed through; a placeholder is
      replaced by the first 4000 characters of a non-empty cached context; with
      nothing cached there is no context at all. */
  function ResolveContext(context: string, last: Option<string>): (r: Resolution)
    ensures !IsPlaceholder(context) ==> r == UseContext(context)
    ensures IsPlaceholder(context) && last.Some? && |last.value| > 0 ==>
              && r.UseContext?
              && |r.text| == (if |last.value| < CachedContextBudget then |last.value| else CachedContextBudget)
              && r.text == last.value[..|r.text|]
    ensures IsPlaceholder(context) && (last.None? || |last.value| == 0) ==> r == NoContext
    ensures r.UseContext? ==> |r.text| > 0
  {
    if IsPlaceholder(context) then
      match last
      case Some(c) =>
        if |c| > 0 then UseContext(PySlice(c, 0, CachedContextBudget)) else NoContext
      case None => NoContext
    else UseContext(context)
  }

  /** The shared body of the two LLM tools: raise without a model, answer the
      no-context message without a context, otherwise ask the model. */
  function AskAboutContext(st: ToolState, context: string, ask: string -> string): (o: Outcome<string>)
    ensures !st.hasLlm ==> o == Raised(LlmNotInitialized)
    ensures st.hasLlm && !IsPlaceholder(context) ==> o == Done(ask(context))
    ensures st.hasLlm && ResolveContext(context, st.lastContext) == NoContext ==> o == Done(NoContextMessage)
    ensures st.hasLlm && ResolveContext(context, st.lastContext).UseContext? ==>
              o == Done(ask(ResolveContext(context, st.lastContext).text))
  {
    if !st.hasLlm then Raised(LlmNotInitialized)
    else
      match ResolveContext(context, st.lastContext)
      case NoContext => Done(NoContextMessage)
      case UseContext(c) => Done(ask(c))
  }

  /** `summarize_context(context)`. `summarise` stands for the model answering the
      summary prompt built around the resolved context. */
  function SummarizeContext(st: ToolState, context: string, summarise: string -> string): (o: Outcome<string>)
    ensures !st.hasLlm ==> o == Raised(LlmNotInitialized)
    ensures st.hasLlm && !IsPlaceholder(context) ==> o == Done(summarise(context))
    ensures st.hasLlm && IsPlaceholder(context) && st.lastContext.Some? && |st.lastContext.value| > 0 ==>
              o == Done(summarise(PySlice(st.lastContext.value, 0, CachedContextBudget)))
    ensures st.hasLlm && IsPlaceholder(context) && (st.lastContext.None? || st.lastContext == Some([])) ==>
              o == Done(NoContextMessage)
  {
    AskAboutContext(st, context, summarise)
  }

  /** `extract_action_items(context)`. `extract` stands for the model answering
      the action-items prompt built around the resolved context. */
  function ExtractActionItems(st: ToolState, context: string, extract: string -> string): (o: Outcome<string>)
    ensures !st.hasLlm ==> o == Raised(LlmNotInitialized)
    ensures st.hasLlm && !IsPlaceholder(context) ==> o == Done(extract(context))
    ensures st.hasLlm && IsPlaceholder(context) && st.lastContext.Some? && |st.lastContext.value| > 0 ==>
              o == Done(extract(PySlice(st.lastContext.value, 0, CachedContextBudget)))
    ensures st.hasLlm && IsPlaceholder(context) && (st.lastContext.None? || st.lastContext == Some([])) ==>
              o == Done(NoContextMessage)
  {
    AskAboutContext(st, context, extract)
  }

  /** Right after `initialize_tools`, a placeholder context finds nothing cached,
      even if an earlier retrieval had filled the cache. */
  lemma FreshToolsHaveNoContext(st: ToolState, placeholder: string, ask: string -> string)
    requires IsPlaceholder(placeholder)
    ensures AskAboutContext(InitializeTools(st, true, true), placeholder, ask) == Done(NoContextMessage)
  {
  }

  /** A retrieval that found something feeds the next placeholder call: the model
      is asked about the first 4000 characters of exactly what was retrieved. */
  lemma RetrieveThenAsk(st: ToolState, query: string, search: (string, int) -> seq<string>,
                        placeholder: string, ask: string -> string)
    requires st.hasStore && st.hasLlm
    requires |search(query, st.retrieveK)| >= 1
    requires IsPlaceholder(placeholder)
    ensures var ctx := Retrieve(st, query, search).value.context;
            AskAboutContext(Retrieve(st, query, search).value.state, placeholder, ask)
            == Done(ask(PySlice(ctx, 0, CachedContextBudget)))
  {
    var docs := search(query, st.retrieveK);
    FormatResultsStartsWithFirstBlock(docs);
  }
}
